=== FILE: README.md ===
# MCG attendance portal — verified model of the attendance rules

The portal (`app.py`) lets employees log in, check in once per day, submit
daily tasks and change their password. Around the Flask and SQLAlchemy glue
sit a few rules with real content, and this project models them as pure
Dafny functions with proved contracts:

- **status classification** (`compute_status`): a check-in time becomes
  Present, Late or Half Day. The inputs are the office start time, the grace
  period and a fixed noon cutoff of 720 minutes after midnight;
- **office start-time parsing** (`parse_office_time`): an `"HH:MM"` setting,
  `"09:30"` when unset, becomes an hour and a minute, or an error;
- **the daily check-in** (`checkin`): at most one attendance record per user
  per day. A repeat check-in is an informational no-op;
- **task submission** (`submit_task`): title and description are stripped.
  The submission is refused when both are empty;
- **the database URL rewrite**: `postgres://` becomes `postgresql://`;
- **login lookup and password change**, with hashing passed in as functions.

Modules: `Wrappers` (Option/Result), `Text` (Python's `split`, `strip`,
`startswith`, `replace(…, 1)` and `int()` on decimal text), `Clock` (dates,
timestamps, `strftime('%H:%M')`), `StatusRules`, `OfficeTime`, `Attendance`,
`Tasks`, `DbUrl`, `Accounts`.

The attendance table is a sequence of rows in insertion order. The
"one record per user and day" rule is therefore an invariant that
`CheckIn` is proved to preserve, not something the container type enforces.
The check-in's `today` (the process's `date.today()`) and `now` (UTC plus
5:30) are separate inputs; the model never derives one from the other.
Every environment setting is a parameter: `OFFICE_START_HHMM` as an
`Option<string>`, `GRACE_MINUTES` as an integer, `DATABASE_URL` as an
`Option<string>`.

A start-time setting that is set but malformed is not replaced by 09:30.
unpacking, `int()` or `time()` raises ValueError, or OverflowError for a
field too large for a C `int` (app.py:61-62), so the check-in fails
after the duplicate check and before anything is inserted
(`StartTimeInvalid`). The default applies only when the variable is unset.

## Model

| member | source | states |
|---|---|---|
| Text.Split | app.py:61 | `split(":")` yields at least one piece, and no piece contains the separator |
| Text.JoinSplit | app.py:61 | joining the pieces of a split with the separator restores the original string |
| Text.SplitJoin | app.py:61 | splitting the join of separator-free pieces gives back exactly those pieces |
| Text.ParseInt | app.py:61 | `int()` succeeds exactly on non-empty decimal text of at most 4300 digits (CPython's default digit limit, leading zeros included), and the value is the number the digits denote in positional notation |
| Text.Strip | app.py:167 | `strip()` is empty iff the text is all whitespace; otherwise it is the infix left after cutting whitespace from both ends, with no whitespace at either end |
| Text.StripUnique | app.py:167 | whitespace padding around a core that is empty or bordered by non-space characters strips to exactly that core |
| Text.StripIdempotent | app.py:167 | stripping twice equals stripping once |
| Clock.TwoDigits | app.py:147 | the `%H`/`%M` field is two decimal digits denoting the number |
| Clock.ParseTwoDigits | app.py:61 | `int()` reads a written two-digit field back as the number it was written from |
| Clock.FormatHHMM | app.py:147 | `%H:%M` is five characters, with the hour digits, a colon and the minute digits |
| StatusRules.Name | app.py:67 | every status is stored as one of "Present", "Late", "Half Day" |
| StatusRules.NameInjective | app.py:67 | two statuses with the same stored name are the same status |
| StatusRules.ComputeStatus | app.py:64-67 | Present iff hour*60+minute is at most start*60+grace (inclusive); Half Day iff past that limit and past minute 720; Late iff past the limit but at or before 720 |
| StatusRules.StatusMonotone | app.py:66-67 | a later check-in minute never gives an earlier status in the order Present < Late < Half Day |
| StatusRules.StatusIgnoresDateAndSeconds | app.py:66 | two timestamps with the same hour and minute get the same status, whatever their date, seconds or microseconds |
| StatusRules.DefaultPolicyExamples | app.py:61-67 | with start 09:30 and grace 10: 09:30 and 09:39 are Present, 09:41 and 12:00 Late, 12:01 Half Day |
| StatusRules.NoLateAfterNoonLimit | app.py:67 | when start plus grace reaches minute 720, no check-in is classified Late |
| OfficeTime.ConvertFields | app.py:61 | `map(int, …)` succeeds iff every field is decimal, with each value that field's number; otherwise it reports the first non-decimal field, the one `int()` raises on |
| OfficeTime.ParseHHMM | app.py:61-62 | an accepted setting gives an hour in 0..23 and a minute in 0..59 |
| OfficeTime.ParseWellFormed | app.py:61-62 | two decimal fields around one colon, in range, parse to exactly those numbers |
| OfficeTime.ParsedIsWellFormed | app.py:61-62 | every accepted setting is two in-range decimal fields around a colon, and the result is those fields' values |
| OfficeTime.ParseSucceedsIff | app.py:61-62 | the setting is accepted iff it is well formed, both directions |
| OfficeTime.FormatRoundTrip | app.py:61-62 | a valid time written as `%H:%M` parses back to the same time |
| OfficeTime.DefaultStartParses | app.py:61 | the default "09:30" gives 9 hours 30 minutes |
| OfficeTime.ParseOfficeTime | app.py:60-62 | an unset setting gives 09:30; a set one is parsed as it stands, with no fallback on error |
| OfficeTime.NoColonRejected | app.py:61-62 | a setting without a colon is rejected: for its field count if it is a number, for the field otherwise |
| OfficeTime.OverlongFieldRejected | app.py:61 | an hour field of more than 4300 digits is rejected by `int()` even when it denotes a small number |
| OfficeTime.OutOfRangeRejected | app.py:61-62 | an hour of 24 or more, or a minute of 60 or more, is rejected; a value above 2147483647 is reported as a C `int` overflow first, hour before minute, and only then is the hour range checked before the minute range |
| Attendance.FirstRecord | app.py:141 | the lookup returns a row for the user and day iff one exists, and returns nothing iff there is no such row |
| Attendance.CheckIn | app.py:136-148 | already checked in iff a record exists, table unchanged; otherwise, if the start time parses, exactly one record (user, today, now, classified status) is appended; if it does not, the table is unchanged and the parse error is reported |
| Attendance.CheckInKeepsOnePerDay | app.py:141-145 | check-in preserves "at most one record per user and day" |
| Attendance.CheckInLeavesExactlyOne | app.py:141-145 | after a check-in that did not fail, the user has exactly one record for today |
| Attendance.CheckInOthersUntouched | app.py:143-145 | existing rows keep their positions and contents, and the lookup for every other user or day is unchanged |
| Attendance.SecondCheckInIsNoOp | app.py:141-142 | a second check-in on the same day, at any time and under any setting, reports already checked in and changes nothing |
| Tasks.SubmitTask | app.py:166-171 | refused, log unchanged, iff both fields are missing or all whitespace; otherwise one task is appended with the user, the date and each field cut to an infix that only whitespace surrounds and that has none at either end (which by `Text.StripUnique` is its `strip()`), and earlier tasks are unchanged |
| Tasks.SubmittedFieldsAreStripped | app.py:167-170 | the stored title and description are exactly `strip()` of the form fields |
| Tasks.SurroundingSpaceIgnored | app.py:167-170 | padding the fields with whitespace does not change the outcome or what is stored |
| Text.ReplaceFirstOccurrence | app.py:18 | `replace(pattern, replacement, 1)` replaces the first occurrence of the pattern and keeps the text before and after it |
| Text.ReplaceFirstAbsent | app.py:18 | without an occurrence of the pattern, `replace(…, 1)` returns the string unchanged |
| DbUrl.RewriteScheme | app.py:17-18 | a `postgres://` URL gets `postgresql://` with the rest kept; any other URL is unchanged; the result never starts with `postgres://` |
| DbUrl.RewriteIdempotent | app.py:17-18 | rewriting twice equals rewriting once |
| DbUrl.RewriteUnifiesSchemes | app.py:17-18 | `postgres://X` and `postgresql://X` both end up as `postgresql://X` |
| DbUrl.DatabaseUri | app.py:16-19 | an unset `DATABASE_URL` gives the SQLite default; a set one is rewritten; the configured URI never carries the `postgres://` scheme |
| Accounts.FindLoginUser | app.py:122 | returns the first user whose employee ID or e-mail equals the identifier, and nothing iff there is none |
| Accounts.Login | app.py:121-123 | the first user named by the stripped identifier is logged in iff the password checks against that user's hash; no match means no login |
| Accounts.ChangePassword | app.py:153-159 | a wrong old password is reported first, then a mismatched confirmation; on success only the hash changes, to the hash of the new password |
| Accounts.LoginAfterChange | app.py:153-159 | after a successful change, logging in with the new password under the same identifier succeeds, provided the identifier names that user alone and the hash checks against its own password |

## Left out

- Flask routing, templates, `flash` messages, redirects and `login_manager`: these are framework glue. The outcome datatypes stand in for the flashed messages.
- SQLAlchemy models, sessions and commits: the tables are immutable sequences, and each route is one atomic step.
- The concurrent duplicate-check race: concurrency is out of scope, and check-in is modelled as atomic.
- Password hashing and checking: these are a foreign library, so they are function parameters.
- The Notion sync calls: these are outbound HTTP with every exception swallowed. They never affect the stored data or the outcome, so the model leaves them out.
- Clock reads (`date.today()`, `datetime.utcnow()` plus 5:30): these are inputs.
- Parsing of `GRACE_MINUTES`: the grace period is an integer parameter. A malformed value would raise in `int()`, and the model does not cover that.
- Text.ParseInt: accepts only non-empty ASCII decimal digits, up to CPython's default limit of 4300 digits. The limit can be changed with `PYTHONINTMAXSTRDIGITS` or `-X int_max_str_digits`, and interpreters older than 3.11 without the 2022 security fix have no limit; the model fixes it at the default. Python's `int()` also accepts surrounding whitespace, a sign, underscores between digits and non-ASCII digits, so "-1:30" is rejected here as not a number rather than as an hour out of range, and " 9:30", which Python accepts, is rejected here.
- Attendance.FirstRecord: picks the lowest-index matching row. The query at app.py:141 has no ORDER BY, so which row comes back is not fixed by the program. The check-in only asks whether a row exists, and under the one-per-day invariant at most one row matches.
- Accounts.FindLoginUser: takes the first matching user in table order. The query at app.py:122 has no ORDER BY, so when one identifier names two users (one by employee ID, another by e-mail) the program does not fix which one it returns.
- Accounts.Login: inherits that fixed order. Both form fields are taken as present strings; a missing `employee_id` or `password` field makes Flask answer 400 before any lookup.
- Accounts.ChangePassword: takes the three fields as present strings. `request.form.get` at app.py:154 gives None for a missing field, and that None then reaches the foreign hashing library, whose behaviour on it is not part of this model.
- Exception types: CPython reports a start-time failure as a ValueError, or as an OverflowError when `time()` cannot convert a field to a C `int`. The model tells the kinds apart, and it keeps the order in which CPython evaluates them.
- The dashboard's seven most recent records, `load_user`, logout, auto-seeding, `list_users.py` and `wsgi.py`: these are display, startup data or entry points with no rules.

=== FILE: accounts.dfy ===
/** Login lookup and password change. Password hashing and checking belong
    to a foreign library, so both are passed in as functions. */
module Accounts {
  import opened Wrappers
  import opened Text

  /** The primary key of the user table, which attendance and task rows refer to. */
  type UserId = int

  datatype Role = Admin | Employee

  datatype User = User(id: UserId, name: string, email: string, passwordHash: string,
                       role: Role, employeeId: string, active: bool)

  /** A login identifier may be either the employee ID or the e-mail address. */
  predicate IdentifiedBy(u: User, login: string) {
    u.employeeId == login || u.email == login
  }

  /** Row `k` is the first user the identifier names. */
  predicate FirstMatchAt(users: seq<User>, login: string, k: int) {
    0 <= k < |users| && IdentifiedBy(users[k], login)
    && forall j :: 0 <= j < k ==> !IdentifiedBy(users[j], login)
  }

  /** `User.query.filter(employee_id == login | email == login).first()`. */
  function FindLoginUser(users: seq<User>, login: string): (r: Option<nat>)
    ensures r.Some? ==> FirstMatchAt(users, login, r.value)
    ensures r.None? ==> forall k :: 0 <= k < |users| ==> !IdentifiedBy(users[k], login)
  {
    if |users| == 0 then None
    else if IdentifiedBy(users[0], login) then Some(0)
    else match FindLoginUser(users[1..], login)
      case None => None
      case Some(k) => Some(k + 1)
  }

  /** The login POST handler: the identifier field is stripped, the first
      user it names is looked up, and that user is logged in when the
      password checks against the stored hash. The `active` flag is not
      consulted. */
  function Login(users: seq<User>, loginField: string, password: string,
                 checkPassword: (string, string) -> bool): (r: Option<User>)
    ensures forall k :: FirstMatchAt(users, Strip(loginField), k) ==>
              r == if checkPassword(users[k].passwordHash, password) then Some(users[k]) else None
    ensures (forall k :: 0 <= k < |users| ==> !IdentifiedBy(users[k], Strip(loginField))) ==> r == None
  {
    match FindLoginUser(users, Strip(loginField))
    case None => None
    case Some(k) =>
      if checkPassword(users[k].passwordHash, password) then Some(users[k]) else None
  }

  datatype PasswordError = OldPasswordIncorrect | PasswordsDoNotMatch

  /** The change-password POST handler: the old password must check, then
      the new password and its confirmation must agree; only then is the
      stored hash replaced, and nothing else about the user changes. */
  function ChangePassword(user: User, oldPassword: string, newPassword: string, confirm: string,
                          checkPassword: (string, string) -> bool,
                          hashPassword: string -> string): (r: Result<User, PasswordError>)
    ensures r == Failure(OldPasswordIncorrect) <==> !checkPassword(user.passwordHash, oldPassword)
    ensures r == Failure(PasswordsDoNotMatch) <==>
              checkPassword(user.passwordHash, oldPassword) && newPassword != confirm
    ensures r.Success? ==> r.value.passwordHash == hashPassword(newPassword)
    ensures r.Success? ==> r.value.(passwordHash := user.passwordHash) == user
  {
    if !checkPassword(user.passwordHash, oldPassword) then Failure(OldPasswordIncorrect)
    else if newPassword != confirm then Failure(PasswordsDoNotMatch)
    else Success(user.(passwordHash := hashPassword(newPassword)))
  }

  /** After a password change the user logs in with the new password under
      the same identifier, provided the identifier names that user alone and
      the hash checks against the password it was made from. */
  lemma LoginAfterChange(users: seq<User>, loginField: string, k: nat,
                         oldPassword: string, newPassword: string,
                         checkPassword: (string, string) -> bool,
                         hashPassword: string -> string)
    requires FirstMatchAt(users, Strip(loginField), k)
    requires forall j :: 0 <= j < |users| && IdentifiedBy(users[j], Strip(loginField)) ==> j == k
    requires ChangePassword(users[k], oldPassword, newPassword, newPassword,
                            checkPassword, hashPassword).Success?
    requires checkPassword(hashPassword(newPassword), newPassword)
    ensures var changed := ChangePassword(users[k], oldPassword, newPassword, newPassword,
                                          checkPassword, hashPassword).value;
            Login(users[k := changed], loginField, newPassword, checkPassword) == Some(changed)
  {
    var changed := ChangePassword(users[k], oldPassword, newPassword, newPassword,
                                  checkPassword, hashPassword).value;
    var users' := users[k := changed];
    assert FirstMatchAt(users', Strip(loginField), k) by {
      forall j | 0 <= j < k ensures !IdentifiedBy(users'[j], Strip(loginField)) {
        assert users'[j] == users[j];
      }
    }
  }
}

=== FILE: attendance.dfy ===
/** The daily check-in: one attendance record per user per day, with the
    status classified from the check-in time. The table is an immutable
    sequence of rows threaded through the transition. */
module Attendance {
  import opened Wrappers
  import opened Clock
  import opened StatusRules
  import opened OfficeTime
  import opened Accounts

  /** One row of the attendance table. */
  datatype Record = Record(user: UserId, date: Date, checkIn: DateTime, status: Status)

  /** The attendance table, rows in insertion order. */
  type Table = seq<Record>

  predicate IsFor(rec: Record, user: UserId, day: Date) {
    rec.user == user && rec.date == day
  }

  predicate HasRecord(t: Table, user: UserId, day: Date) {
    exists k :: 0 <= k < |t| && IsFor(t[k], user, day)
  }

  /** The table invariant: at most one record per user and day. */
  predicate OnePerDay(t: Table) {
    forall i, j :: 0 <= i < j < |t| && t[i].user == t[j].user ==> t[i].date != t[j].date
  }

  /** How many rows belong to `user` on `day`. */
  function CountFor(t: Table, user: UserId, day: Date): nat {
    if |t| == 0 then 0
    else (if IsFor(t[0], user, day) then 1 else 0) + CountFor(t[1..], user, day)
  }

  /** `Attendance.query.filter_by(user_id=user, date=day).first()`: the
      index of the first matching row, if any. */
  function FirstRecord(t: Table, user: UserId, day: Date): (r: Option<nat>)
    ensures r.Some? ==> r.value < |t| && IsFor(t[r.value], user, day)
    ensures r.Some? ==> forall k :: 0 <= k < r.value ==> !IsFor(t[k], user, day)
    ensures r.None? <==> !HasRecord(t, user, day)
  {
    if |t| == 0 then None
    else if IsFor(t[0], user, day) then Some(0)
    else match FirstRecord(t[1..], user, day)
      case None => None
      case Some(k) => Some(k + 1)
  }

  datatype CheckInOutcome =
    | AlreadyCheckedIn
    | CheckedIn(status: Status)
    | StartTimeInvalid(error: ParseError)

  datatype CheckInResult = CheckInResult(outcome: CheckInOutcome, table: Table)

  /** The `checkin` route as one atomic step. `today` and `now` are separate
      clock readings; the start-time setting is parsed, as the classifier
      does, only once no record for today has been found. */
  function CheckIn(t: Table, user: UserId, today: Date, now: DateTime,
                   startSetting: Option<string>, grace: int): (r: CheckInResult)
    ensures r.outcome == AlreadyCheckedIn <==> HasRecord(t, user, today)
    ensures !r.outcome.CheckedIn? ==> r.table == t
    ensures r.outcome.StartTimeInvalid? <==>
              !HasRecord(t, user, today) && ParseOfficeTime(startSetting).Failure?
    ensures r.outcome.StartTimeInvalid? ==> r.outcome.error == ParseOfficeTime(startSetting).error
    ensures r.outcome.CheckedIn? ==> r.table == t + [Record(user, today, now, r.outcome.status)]
    ensures r.outcome.CheckedIn? ==>
              r.outcome.status == ComputeStatus(now, ParseOfficeTime(startSetting).value, grace)
  {
    if FirstRecord(t, user, today).Some? then CheckInResult(AlreadyCheckedIn, t)
    else match ParseOfficeTime(startSetting)
      case Failure(e) => CheckInResult(StartTimeInvalid(e), t)
      case Success(start) =>
        var status := ComputeStatus(now, start, grace);
        CheckInResult(CheckedIn(status), t + [Record(user, today, now, status)])
  }

  /** A check-in never creates a second record for the same user and day. */
  lemma CheckInKeepsOnePerDay(t: Table, user: UserId, today: Date, now: DateTime,
                              startSetting: Option<string>, grace: int)
    requires OnePerDay(t)
    ensures OnePerDay(CheckIn(t, user, today, now, startSetting, grace).table)
  {
  }

  lemma {:induction false} CountZero(t: Table, user: UserId, day: Date)
    ensures CountFor(t, user, day) == 0 <==> !HasRecord(t, user, day)
  {
    if |t| > 0 {
      CountZero(t[1..], user, day);
      if HasRecord(t[1..], user, day) {
        var k :| 0 <= k < |t[1..]| && IsFor(t[1..][k], user, day);
        assert IsFor(t[k + 1], user, day);
      }
      if HasRecord(t, user, day) && !IsFor(t[0], user, day) {
        var k :| 0 <= k < |t| && IsFor(t[k], user, day);
        assert IsFor(t[1..][k - 1], user, day);
      }
    }
  }

  lemma {:induction false} CountAppend(t: Table, x: Record, user: UserId, day: Date)
    ensures CountFor(t + [x], user, day) == CountFor(t, user, day) + (if IsFor(x, user, day) then 1 else 0)
  {
    if |t| == 0 {
      assert t + [x] == [x];
      assert [x][1..] == [];
    } else {
      assert (t + [x])[1..] == t[1..] + [x];
      CountAppend(t[1..], x, user, day);
    }
  }

  /** Under the invariant a user has at most one record on any day. */
  lemma {:induction false} CountAtMostOne(t: Table, user: UserId, day: Date)
    requires OnePerDay(t)
    ensures CountFor(t, user, day) <= 1
  {
    if |t| > 0 {
      assert OnePerDay(t[1..]) by {
        forall i, j | 0 <= i < j < |t[1..]| && t[1..][i].user == t[1..][j].user
          ensures t[1..][i].date != t[1..][j].date
        {
          assert t[1..][i] == t[i + 1] && t[1..][j] == t[j + 1];
        }
      }
      CountAtMostOne(t[1..], user, day);
      if IsFor(t[0], user, day) {
        assert !HasRecord(t[1..], user, day);
        CountZero(t[1..], user, day);
      }
    }
  }

  /** After a check-in that did not fail, the user has exactly one record
      for today, whether it was just added or was already there. */
  lemma CheckInLeavesExactlyOne(t: Table, user: UserId, today: Date, now: DateTime,
                                startSetting: Option<string>, grace: int)
    requires OnePerDay(t)
    requires !CheckIn(t, user, today, now, startSetting, grace).outcome.StartTimeInvalid?
    ensures CountFor(CheckIn(t, user, today, now, startSetting, grace).table, user, today) == 1
  {
    var r := CheckIn(t, user, today, now, startSetting, grace);
    CountZero(t, user, today);
    if r.outcome.CheckedIn? {
      CountAppend(t, Record(user, today, now, r.outcome.status), user, today);
    } else {
      CountAtMostOne(t, user, today);
    }
  }

  /** Appending a row for someone else leaves the first-row lookup alone. */
  lemma {:induction false} FirstRecordAppendOther(t: Table, x: Record, user: UserId, day: Date)
    requires !IsFor(x, user, day)
    ensures FirstRecord(t + [x], user, day) == FirstRecord(t, user, day)
  {
    if |t| == 0 {
      assert t + [x] == [x];
      assert [x][1..] == [];
    } else {
      assert (t + [x])[1..] == t[1..] + [x];
      FirstRecordAppendOther(t[1..], x, user, day);
    }
  }

  /** A check-in changes nothing another user or another day can see:
      existing rows keep their positions and contents, and every other
      (user, day) lookup returns what it returned before. */
  lemma CheckInOthersUntouched(t: Table, user: UserId, today: Date, now: DateTime,
                               startSetting: Option<string>, grace: int,
                               other: UserId, day: Date)
    requires other != user || day != today
    ensures |CheckIn(t, user, today, now, startSetting, grace).table| >= |t|
    ensures CheckIn(t, user, today, now, startSetting, grace).table[..|t|] == t
    ensures FirstRecord(CheckIn(t, user, today, now, startSetting, grace).table, other, day)
            == FirstRecord(t, other, day)
  {
    var r := CheckIn(t, user, today, now, startSetting, grace);
    if r.outcome.CheckedIn? {
      assert r.table[..|t|] == t;
      FirstRecordAppendOther(t, Record(user, today, now, r.outcome.status), other, day);
    }
  }

  /** Checking in again the same day, at any time and under any setting, is
      reported as already checked in and leaves the table as it was. */
  lemma SecondCheckInIsNoOp(t: Table, user: UserId, today: Date, now: DateTime,
                            startSetting: Option<string>, grace: int,
                            later: DateTime, laterSetting: Option<string>, laterGrace: int)
    requires CheckIn(t, user, today, now, startSetting, grace).outcome.CheckedIn?
    ensures var t' := CheckIn(t, user, today, now, startSetting, grace).table;
            CheckIn(t', user, today, later, laterSetting, laterGrace) == CheckInResult(AlreadyCheckedIn, t')
  {
    var t' := CheckIn(t, user, today, now, startSetting, grace).table;
    assert IsFor(t'[|t|], user, today);
  }
}

=== FILE: clock.dfy ===
/** Calendar dates and local clock readings, as Python's `date`, `datetime`
    and `time` carry them. Clock reads are inputs to the model, never
    computed by it. */
module Clock {
  import Text
  import opened Wrappers

  datatype Date = Date(year: int, month: int, day: int)

  /** A local civil timestamp, as `datetime` carries it. */
  datatype DateTime = DateTime(date: Date, hour: int, minute: int, second: int, microsecond: int)

  /** A time of day without seconds, as `time(h, m)` builds it. */
  datatype TimeOfDay = TimeOfDay(hour: int, minute: int)

  /** The range `time(h, m)` accepts without raising ValueError. */
  predicate ValidTimeOfDay(t: TimeOfDay) {
    0 <= t.hour < 24 && 0 <= t.minute < 60
  }

  function MinuteOfDay(hour: int, minute: int): int {
    hour * 60 + minute
  }

  /** A zero-padded two-digit field, as strftime's `%H` and `%M` write it. */
  function TwoDigits(n: int): (r: string)
    requires 0 <= n < 100
    ensures |r| == 2 && Text.AllDigits(r)
    ensures Text.DigitsValue(r) == n
  {
    var r := [('0' as int + n / 10) as char, ('0' as int + n % 10) as char];
    assert r[..1] == [r[0]];
    assert r[..1][..0] == [];
    assert Text.DigitsValue(r[..1]) == n / 10;
    r
  }

  /** `int()` reads a written two-digit field back as its number. */
  lemma ParseTwoDigits(n: int)
    requires 0 <= n < 100
    ensures Text.ParseInt(TwoDigits(n)) == Some(n)
  {
  }

  /** `strftime('%H:%M')`. */
  function FormatHHMM(hour: int, minute: int): (r: string)
    requires 0 <= hour < 24 && 0 <= minute < 60
    ensures |r| == 5 && r[2] == ':'
    ensures r[..2] == TwoDigits(hour) && r[3..] == TwoDigits(minute)
  {
    TwoDigits(hour) + ":" + TwoDigits(minute)
  }
}

=== FILE: db_url.dfy ===
/** The database connection string: taken from the environment with a local
    SQLite default, and with the legacy `postgres://` scheme renamed to the
    `postgresql://` scheme the database driver expects. */
module DbUrl {
  import opened Wrappers
  import opened Text

  const DefaultUrl: string := "sqlite:///mcg_local.db"
  const LegacyScheme: string := "postgres://"
  const CurrentScheme: string := "postgresql://"

  /** The rewrite of the legacy scheme: only the leading `postgres://` is
      replaced, everything after it is kept, and any other URL passes through.
      The result never carries the legacy scheme. */
  function RewriteScheme(url: string): (r: string)
    ensures StartsWith(url, LegacyScheme) ==>
              StartsWith(r, CurrentScheme) && r[|CurrentScheme|..] == url[|LegacyScheme|..]
    ensures !StartsWith(url, LegacyScheme) ==> r == url
    ensures !StartsWith(r, LegacyScheme)
  {
    if StartsWith(url, LegacyScheme) then
      var r := ReplaceFirst(url, LegacyScheme, CurrentScheme);
      assert r[..|CurrentScheme|] == CurrentScheme;
      assert r[..|LegacyScheme|] != LegacyScheme by {
        assert r[8] == 'q' && LegacyScheme[8] == ':';
      }
      r
    else url
  }

  /** Rewriting a rewritten URL changes nothing more. */
  lemma RewriteIdempotent(url: string)
    ensures RewriteScheme(RewriteScheme(url)) == RewriteScheme(url)
  {
  }

  /** The legacy and the current spelling of a URL end up the same. */
  lemma RewriteUnifiesSchemes(rest: string)
    ensures RewriteScheme(LegacyScheme + rest) == CurrentScheme + rest
    ensures RewriteScheme(CurrentScheme + rest) == CurrentScheme + rest
  {
  }

  /** `SQLALCHEMY_DATABASE_URI`: the `DATABASE_URL` setting, or the SQLite
      default when it is unset, after the scheme rewrite. */
  function DatabaseUri(setting: Option<string>): (r: string)
    ensures setting.None? ==> r == DefaultUrl
    ensures setting.Some? ==> r == RewriteScheme(setting.value)
    ensures !StartsWith(r, LegacyScheme)
  {
    assert !StartsWith(DefaultUrl, LegacyScheme) by {
      assert DefaultUrl[0] == 's';
    }
    RewriteScheme(setting.GetOr(DefaultUrl))
  }
}

=== FILE: office_time.dfy ===
/** Parsing of the configured office start time, an `"HH:MM"` string read
    from the environment with `"09:30"` as the value when it is unset. */
module OfficeTime {
  import opened Wrappers
  import opened Text
  import opened Clock

  /** Why the start-time setting was rejected. In app.py each of these
      aborts the request: `CIntOverflow` as an OverflowError, the others as
      a ValueError. */
  datatype ParseError =
    | NotAnInteger(field: string)
    | WrongFieldCount(count: nat)
    | CIntOverflow(value: int)
    | HourOutOfRange(hour: int)
    | MinuteOutOfRange(minute: int)

  /** The largest value `time()` can convert to a C `int` argument. */
  const MaxCInt: int := 0x7FFF_FFFF

  /** The start time used when the setting is absent. */
  const DefaultStart: string := "09:30"

  /** `int()` applied to each field in turn; the first field that is not
      decimal text is reported. */
  function ConvertFields(fields: seq<string>): (r: Result<seq<int>, ParseError>)
    ensures r.Success? <==> forall k :: 0 <= k < |fields| ==> IsDecimal(fields[k])
    ensures r.Success? ==> |r.value| == |fields|
    ensures r.Success? ==> forall k :: 0 <= k < |fields| ==> r.value[k] == DigitsValue(fields[k])
    ensures r.Failure? ==> r.error.NotAnInteger?
    ensures r.Failure? ==> exists k :: 0 <= k < |fields| && r.error.field == fields[k] && !IsDecimal(fields[k])
                                       && forall j :: 0 <= j < k ==> IsDecimal(fields[j])
  {
    if |fields| == 0 then Success([])
    else match ParseInt(fields[0])
      case None => Failure(NotAnInteger(fields[0]))
      case Some(n) =>
        match ConvertFields(fields[1..])
        case Failure(e) => Failure(e)
        case Success(ns) => Success([n] + ns)
  }

  /** `h, m = map(int, s.split(":"))` followed by `time(h, m)`. Unpacking the
      lazy `map` converts up to three fields, in order, before it can tell
      that the count is wrong. `time` then converts the hour and then the
      minute to C `int`s, and only after that checks the hour range and then
      the minute range. */
  function ParseHHMM(s: string): (r: Result<TimeOfDay, ParseError>)
    ensures r.Success? ==> ValidTimeOfDay(r.value)
  {
    var fields := Split(s, ':');
    var pulled := if |fields| < 3 then |fields| else 3;
    match ConvertFields(fields[..pulled])
    case Failure(e) => Failure(e)
    case Success(nums) =>
      if |fields| != 2 then Failure(WrongFieldCount(|fields|))
      else if nums[0] > MaxCInt then Failure(CIntOverflow(nums[0]))
      else if nums[1] > MaxCInt then Failure(CIntOverflow(nums[1]))
      else if !(0 <= nums[0] < 24) then Failure(HourOutOfRange(nums[0]))
      else if !(0 <= nums[1] < 60) then Failure(MinuteOutOfRange(nums[1]))
      else Success(TimeOfDay(nums[0], nums[1]))
  }

  /** `s` is two decimal fields, an hour and a minute in range, around the
      colon at position `i`. */
  predicate WellFormedAt(s: string, i: int) {
    && 0 <= i < |s| && s[i] == ':'
    && IsDecimal(s[..i]) && IsDecimal(s[i + 1..])
    && DigitsValue(s[..i]) < 24 && DigitsValue(s[i + 1..]) < 60
  }

  /** A well-formed setting parses to the numbers written in it. */
  lemma ParseWellFormed(s: string, i: int)
    requires WellFormedAt(s, i)
    ensures ParseHHMM(s) == Success(TimeOfDay(DigitsValue(s[..i]), DigitsValue(s[i + 1..])))
  {
    var a, b := s[..i], s[i + 1..];
    assert s == a + [':'] + b;
    DecimalHasNoColon(a);
    DecimalHasNoColon(b);
    SplitTwo(a, b, ':');
    assert Split(s, ':')[..2] == [a, b];
  }

  /** Only a well-formed setting parses, and it parses to its own fields. */
  lemma ParsedIsWellFormed(s: string)
    requires ParseHHMM(s).Success?
    ensures exists i :: WellFormedAt(s, i)
                        && ParseHHMM(s).value == TimeOfDay(DigitsValue(s[..i]), DigitsValue(s[i + 1..]))
  {
    var fields := Split(s, ':');
    assert |fields| == 2;
    assert fields[..2] == fields;
    JoinSplit(s, ':');
    assert fields[1..] == [fields[1]];
    assert s == fields[0] + [':'] + fields[1];
    var i := |fields[0]|;
    assert s[..i] == fields[0];
    assert s[i + 1..] == fields[1];
    assert WellFormedAt(s, i);
  }

  /** The start-time setting is accepted exactly when it is well formed. */
  lemma ParseSucceedsIff(s: string)
    ensures ParseHHMM(s).Success? <==> exists i :: WellFormedAt(s, i)
  {
    if ParseHHMM(s).Success? {
      ParsedIsWellFormed(s);
    }
    if i :| WellFormedAt(s, i) {
      ParseWellFormed(s, i);
    }
  }

  /** Reading back what `strftime('%H:%M')` writes gives the same time. */
  lemma FormatRoundTrip(t: TimeOfDay)
    requires ValidTimeOfDay(t)
    ensures ParseHHMM(FormatHHMM(t.hour, t.minute)) == Success(t)
  {
    var s := FormatHHMM(t.hour, t.minute);
    assert WellFormedAt(s, 2);
    ParseWellFormed(s, 2);
  }

  /** The default setting stands for 09:30. */
  lemma DefaultStartParses()
    ensures ParseHHMM(DefaultStart) == Success(TimeOfDay(9, 30))
  {
    assert DefaultStart[..2] == "09" && DefaultStart[3..] == "30";
    assert "09"[..1] == "0" && "30"[..1] == "3";
    ParseWellFormed(DefaultStart, 2);
  }

  /** `parse_office_time`: the setting when present, `"09:30"` otherwise.
      A value that is set but malformed is an error; it does not fall back
      to the default. */
  function ParseOfficeTime(setting: Option<string>): (r: Result<TimeOfDay, ParseError>)
    ensures setting.None? ==> r == Success(TimeOfDay(9, 30))
    ensures setting.Some? ==> r == ParseHHMM(setting.value)
  {
    DefaultStartParses();
    ParseHHMM(setting.GetOr(DefaultStart))
  }

  /** A setting without a colon is one field: rejected for its field count
      when that field is a number, for the field itself otherwise. */
  lemma NoColonRejected(s: string)
    requires ':' !in s
    ensures ParseHHMM(s) == if IsDecimal(s) then Failure(WrongFieldCount(1)) else Failure(NotAnInteger(s))
  {
    SplitPrefix(s, "", ':');
    assert s + "" == s;
    assert Split(s, ':') == [s];
    assert [s][..1] == [s];
    assert [s][1..] == [];
  }

  /** An hour or minute past its range is reported. A value too large for
      a C `int` is reported first, hour before minute; then the hour range
      is checked before the minute range. */
  lemma OutOfRangeRejected(a: string, b: string)
    requires IsDecimal(a) && IsDecimal(b)
    requires DigitsValue(a) >= 24 || DigitsValue(b) >= 60
    ensures ParseHHMM(a + ":" + b) ==
              if DigitsValue(a) > MaxCInt then Failure(CIntOverflow(DigitsValue(a)))
              else if DigitsValue(b) > MaxCInt then Failure(CIntOverflow(DigitsValue(b)))
              else if DigitsValue(a) >= 24 then Failure(HourOutOfRange(DigitsValue(a)))
              else Failure(MinuteOutOfRange(DigitsValue(b)))
  {
    DecimalHasNoColon(a);
    DecimalHasNoColon(b);
    SplitTwo(a, b, ':');
    assert Split(a + ":" + b, ':')[..2] == [a, b];
  }

  /** A field longer than the digit limit is rejected by `int()`, even when
      it denotes a small number such as a zero-padded hour. */
  lemma OverlongFieldRejected(a: string, b: string)
    requires AllDigits(a) && |a| > MaxStrDigits
    requires ':' !in b
    ensures ParseHHMM(a + ":" + b) == Failure(NotAnInteger(a))
  {
    DecimalHasNoColon(a);
    SplitTwo(a, b, ':');
    assert Split(a + ":" + b, ':')[..2] == [a, b];
  }
}

=== FILE: status.dfy ===
/** Attendance status classification: a check-in time is compared with the
    office start time plus a grace period, and with a fixed noon cutoff. */
module StatusRules {
  import opened Wrappers
  import opened Clock

  datatype Status = Present | Late | HalfDay

  /** Minutes after midnight past which a late check-in counts as a half day. */
  const NoonCutoff: int := 720

  /** The string stored in the attendance table and shown to the user. */
  function Name(s: Status): (r: string)
    ensures r in {"Present", "Late", "Half Day"}
  {
    match s
    case Present => "Present"
    case Late => "Late"
    case HalfDay => "Half Day"
  }

  /** Each status has its own name, so the stored string identifies it. */
  lemma NameInjective(a: Status, b: Status)
    requires Name(a) == Name(b)
    ensures a == b
  {
  }

  /** The order Present < Late < Half Day. */
  function Rank(s: Status): nat {
    match s
    case Present => 0
    case Late => 1
    case HalfDay => 2
  }

  /** The check-in minute of day, counting hours and minutes only. */
  function CheckInMinute(now: DateTime): int {
    MinuteOfDay(now.hour, now.minute)
  }

  /** The last minute of day that still counts as on time. */
  function OnTimeLimit(start: TimeOfDay, grace: int): int {
    MinuteOfDay(start.hour, start.minute) + grace
  }

  /** `compute_status` with the start time and grace period passed in:
      Present up to and including the end of the grace period; after it,
      Half Day past noon and Late otherwise. */
  function ComputeStatus(now: DateTime, start: TimeOfDay, grace: int): (r: Status)
    ensures r == Present <==> now.hour * 60 + now.minute <= start.hour * 60 + start.minute + grace
    ensures r == HalfDay <==>
              now.hour * 60 + now.minute > start.hour * 60 + start.minute + grace
              && now.hour * 60 + now.minute > 720
    ensures r == Late <==>
              start.hour * 60 + start.minute + grace < now.hour * 60 + now.minute <= 720
  {
    var mins := CheckInMinute(now);
    if mins <= OnTimeLimit(start, grace) then Present
    else if mins > NoonCutoff then HalfDay
    else Late
  }

  /** A later check-in never earns an earlier status. */
  lemma StatusMonotone(early: DateTime, late: DateTime, start: TimeOfDay, grace: int)
    requires CheckInMinute(early) <= CheckInMinute(late)
    ensures Rank(ComputeStatus(early, start, grace)) <= Rank(ComputeStatus(late, start, grace))
  {
  }

  /** The status depends on the hour and minute only: the date, seconds and
      microseconds of the check-in play no part. */
  lemma StatusIgnoresDateAndSeconds(a: DateTime, b: DateTime, start: TimeOfDay, grace: int)
    requires a.hour == b.hour && a.minute == b.minute
    ensures ComputeStatus(a, start, grace) == ComputeStatus(b, start, grace)
  {
  }

  /** With a start of 09:30 and ten minutes' grace: 09:30 and 09:39 are
      Present, 09:41 and 12:00 are Late, 12:01 is a Half Day. */
  lemma DefaultPolicyExamples(d: Date)
    ensures ComputeStatus(DateTime(d, 9, 30, 0, 0), TimeOfDay(9, 30), 10) == Present
    ensures ComputeStatus(DateTime(d, 9, 39, 59, 0), TimeOfDay(9, 30), 10) == Present
    ensures ComputeStatus(DateTime(d, 9, 41, 0, 0), TimeOfDay(9, 30), 10) == Late
    ensures ComputeStatus(DateTime(d, 12, 0, 0, 0), TimeOfDay(9, 30), 10) == Late
    ensures ComputeStatus(DateTime(d, 12, 1, 0, 0), TimeOfDay(9, 30), 10) == HalfDay
  {
  }

  /** A start time and grace reaching past noon leave no room for Late:
      every check-in is Present or a Half Day. */
  lemma NoLateAfterNoonLimit(now: DateTime, start: TimeOfDay, grace: int)
    requires OnTimeLimit(start, grace) >= NoonCutoff
    ensures ComputeStatus(now, start, grace) != Late
  {
  }
}

=== FILE: tasks.dfy ===
/** Daily task submission: a title and a description from a form, stripped
    of surrounding whitespace, appended to the task log unless both are
    empty. */
module Tasks {
  import opened Wrappers
  import opened Text
  import opened Clock
  import opened Accounts

  datatype Task = Task(user: UserId, date: Date, title: string, description: string)

  datatype SubmitOutcome = EmptySubmission | Submitted

  datatype SubmitResult = SubmitResult(outcome: SubmitOutcome, tasks: seq<Task>)

  /** `request.form.get(name, "")`: a missing field reads as empty. */
  function FormField(field: Option<string>): string {
    field.GetOr("")
  }

  /** The `submit_task` POST handler. The submission is refused, with the log
      unchanged, exactly when both fields are missing or all whitespace;
      otherwise exactly one task carrying the stripped fields is appended. */
  function SubmitTask(tasks: seq<Task>, user: UserId, today: Date,
                      title: Option<string>, description: Option<string>): (r: SubmitResult)
    ensures r.outcome == EmptySubmission <==> AllSpace(FormField(title)) && AllSpace(FormField(description))
    ensures r.outcome == EmptySubmission ==> r.tasks == tasks
    ensures r.outcome == Submitted ==> |r.tasks| == |tasks| + 1 && r.tasks[..|tasks|] == tasks
    ensures r.outcome == Submitted ==>
              var added := r.tasks[|tasks|];
              && added.user == user && added.date == today
              && PaddedBy(FormField(title), added.title)
              && PaddedBy(FormField(description), added.description)
              && Strip(added.title) == added.title
              && Strip(added.description) == added.description
              && (added.title != [] || added.description != [])
  {
    var t := Strip(FormField(title));
    var d := Strip(FormField(description));
    if t == [] && d == [] then SubmitResult(EmptySubmission, tasks)
    else
      var tasks' := tasks + [Task(user, today, t, d)];
      assert tasks'[..|tasks|] == tasks;
      assert tasks'[|tasks|] == Task(user, today, t, d);
      StripIdempotent(FormField(title));
      StripIdempotent(FormField(description));
      SubmitResult(Submitted, tasks')
  }

  /** The stored title and description are exactly what `strip()` makes of
      the form fields. */
  lemma SubmittedFieldsAreStripped(tasks: seq<Task>, user: UserId, today: Date,
                                   title: Option<string>, description: Option<string>)
    requires !(AllSpace(FormField(title)) && AllSpace(FormField(description)))
    ensures var added := SubmitTask(tasks, user, today, title, description).tasks[|tasks|];
            added.title == Strip(FormField(title)) && added.description == Strip(FormField(description))
  {
  }

  /** Whitespace around the fields does not change what is stored. */
  lemma SurroundingSpaceIgnored(tasks: seq<Task>, user: UserId, today: Date,
                                title: string, description: string, pad: string)
    requires AllSpace(pad)
    requires title == [] || (!IsSpace(title[0]) && !IsSpace(title[|title| - 1]))
    requires description == [] || (!IsSpace(description[0]) && !IsSpace(description[|description| - 1]))
    ensures SubmitTask(tasks, user, today, Some(pad + title + pad), Some(pad + description + pad))
            == SubmitTask(tasks, user, today, Some(title), Some(description))
  {
    var paddedTitle, paddedDescription := pad + title + pad, pad + description + pad;
    StripUnique(pad, title, pad);
    StripUnique(pad, description, pad);
    StripUnique("", title, "");
    StripUnique("", description, "");
    assert "" + title + "" == title;
    assert "" + description + "" == description;
    assert Strip(FormField(Some(paddedTitle))) == Strip(FormField(Some(title)));
    assert Strip(FormField(Some(paddedDescription))) == Strip(FormField(Some(description)));
  }
}

=== FILE: text.dfy ===
/** The string operations the application relies on, with Python's semantics:
    `str.split(sep)`, `str.strip()`, `str.startswith`, `str.replace` with a count of one
    and `int()` on decimal text. */
module Text {
  import opened Wrappers

  // ---------------------------------------------------------------- split

  /** `s.split(sep)`: the pieces of `s` between occurrences of `sep`.
      There is always at least one piece, and no piece contains `sep`. */
  function Split(s: string, sep: char): (fields: seq<string>)
    ensures |fields| >= 1
    ensures forall k :: 0 <= k < |fields| ==> sep !in fields[k]
  {
    if |s| == 0 then [""]
    else
      var rest := Split(s[1..], sep);
      if s[0] == sep then [""] + rest
      else [[s[0]] + rest[0]] + rest[1..]
  }

  /** `sep.join(fields)`: the inverse of `Split`. */
  function Join(fields: seq<string>, sep: char): string
    requires |fields| >= 1
  {
    if |fields| == 1 then fields[0]
    else fields[0] + [sep] + Join(fields[1..], sep)
  }

  /** Joining the pieces back together restores the string. */
  lemma {:induction false} JoinSplit(s: string, sep: char)
    ensures Join(Split(s, sep), sep) == s
  {
    if |s| > 0 {
      JoinSplit(s[1..], sep);
      var rest := Split(s[1..], sep);
      if s[0] == sep {
        assert ([""] + rest)[1..] == rest;
      } else {
        var fields := [[s[0]] + rest[0]] + rest[1..];
        if |rest| > 1 {
          assert fields[1..] == rest[1..];
        }
        assert s == [s[0]] + s[1..];
      }
    }
  }

  /** A prefix free of the separator is glued to the first piece. */
  lemma {:induction false} SplitPrefix(a: string, t: string, sep: char)
    requires sep !in a
    ensures Split(a + t, sep) == [a + Split(t, sep)[0]] + Split(t, sep)[1..]
  {
    if |a| > 0 {
      var f := Split(t, sep);
      assert (a + t)[0] == a[0] && (a + t)[1..] == a[1..] + t;
      SplitPrefix(a[1..], t, sep);
      var rest := Split(a[1..] + t, sep);
      assert rest[0] == a[1..] + f[0] && rest[1..] == f[1..];
      assert Split(a + t, sep) == [[a[0]] + rest[0]] + rest[1..];
      assert [a[0]] + (a[1..] + f[0]) == a + f[0];
    } else {
      var f := Split(t, sep);
      assert a + t == t;
      assert a + f[0] == f[0];
      assert f == [f[0]] + f[1..];
    }
  }

  /** Splitting the joined pieces gives the pieces back, provided none of
      them contains the separator. */
  lemma {:induction false} SplitJoin(fields: seq<string>, sep: char)
    requires |fields| >= 1
    requires forall k :: 0 <= k < |fields| ==> sep !in fields[k]
    ensures Split(Join(fields, sep), sep) == fields
  {
    if |fields| == 1 {
      SplitPrefix(fields[0], "", sep);
      assert fields[0] + "" == fields[0];
    } else {
      var tail := Join(fields[1..], sep);
      SplitJoin(fields[1..], sep);
      var t := [sep] + tail;
      assert t[1..] == tail;
      assert Split(t, sep) == [""] + fields[1..];
      assert Join(fields, sep) == fields[0] + t;
      SplitPrefix(fields[0], t, sep);
      assert fields[0] + "" == fields[0];
    }
  }

  /** Two separator-free pieces around one separator split into exactly
      those two pieces. */
  lemma SplitTwo(a: string, b: string, sep: char)
    requires sep !in a && sep !in b
    ensures Split(a + [sep] + b, sep) == [a, b]
  {
    SplitJoin([a, b], sep);
    assert [a, b][1..] == [b];
  }

  // --------------------------------------------------------------- digits

  predicate IsDigit(c: char) {
    '0' <= c <= '9'
  }

  predicate AllDigits(s: string) {
    forall k :: 0 <= k < |s| ==> IsDigit(s[k])
  }

  /** CPython's default limit on the number of digits `int()` converts from
      decimal text (`sys.get_int_max_str_digits()`); leading zeros count. */
  const MaxStrDigits: nat := 4300

  /** Text that `int()` accepts in this model: one or more decimal digits,
      and no more than the digit limit. */
  predicate IsDecimal(s: string) {
    0 < |s| <= MaxStrDigits && AllDigits(s)
  }

  /** The number a string of decimal digits denotes. */
  function DigitsValue(s: string): nat
    requires AllDigits(s)
  {
    if |s| == 0 then 0
    else DigitsValue(s[..|s| - 1]) * 10 + (s[|s| - 1] as int - '0' as int)
  }

  /** Python's `int(s)` on decimal text; `None` where it raises ValueError. */
  function ParseInt(s: string): (r: Option<int>)
    ensures r.Some? <==> IsDecimal(s)
    ensures r.Some? ==> r.value == DigitsValue(s)
  {
    if IsDecimal(s) then Some(DigitsValue(s)) else None
  }

  /** Decimal text never contains a colon, so it is a single `Split` piece. */
  lemma DecimalHasNoColon(s: string)
    requires AllDigits(s)
    ensures ':' !in s
  {
  }

  // ----------------------------------------------------------- whitespace

  /** The characters `str.isspace()` accepts, which `str.strip()` removes. */
  predicate IsSpace(c: char) {
    || c == ' '
    || '\t' <= c <= '\r'
    || '\U{1C}' <= c <= '\U{1F}'
    || c == '\U{85}'
    || c == '\U{A0}'
    || c == '\U{1680}'
    || '\U{2000}' <= c <= '\U{200A}'
    || c == '\U{2028}'
    || c == '\U{2029}'
    || c == '\U{202F}'
    || c == '\U{205F}'
    || c == '\U{3000}'
  }

  predicate AllSpace(s: string) {
    forall k :: 0 <= k < |s| ==> IsSpace(s[k])
  }

  /** `s.lstrip()`: the suffix left after removing the leading whitespace. */
  function TrimStart(s: string): (r: string)
    ensures |r| <= |s| && r == s[|s| - |r|..]
    ensures AllSpace(s[..|s| - |r|])
    ensures |r| > 0 ==> !IsSpace(r[0])
  {
    if |s| > 0 && IsSpace(s[0]) then TrimStart(s[1..]) else s
  }

  /** `s.rstrip()`: the prefix left after removing the trailing whitespace. */
  function TrimEnd(s: string): (r: string)
    ensures |r| <= |s| && r == s[..|r|]
    ensures AllSpace(s[|r|..])
    ensures |r| > 0 ==> !IsSpace(r[|r| - 1])
  {
    if |s| > 0 && IsSpace(s[|s| - 1]) then TrimEnd(s[..|s| - 1]) else s
  }

  /** `t` is what remains of `s` once whitespace is cut from both ends. */
  ghost predicate PaddedBy(s: string, t: string) {
    exists i, j :: 0 <= i <= j <= |s| && s[i..j] == t && AllSpace(s[..i]) && AllSpace(s[j..])
  }

  /** `s.strip()`: empty exactly when `s` is all whitespace; otherwise an
      infix of `s`, surrounded only by whitespace, that neither starts nor
      ends with whitespace. */
  function Strip(s: string): (r: string)
    ensures r == [] <==> AllSpace(s)
    ensures r != [] ==> !IsSpace(r[0]) && !IsSpace(r[|r| - 1])
    ensures PaddedBy(s, r)
  {
    StripEmptyIff(s);
    StripBorders(s);
    StripPadded(s);
    TrimEnd(TrimStart(s))
  }

  /** Nothing is left exactly when everything was whitespace. */
  lemma StripEmptyIff(s: string)
    ensures TrimEnd(TrimStart(s)) == [] <==> AllSpace(s)
  {
    var t := TrimStart(s);
    if TrimEnd(t) == [] {
      assert t[0..] == t;
      AllSpaceConcat(s[..|s| - |t|], t);
      assert s == s[..|s| - |t|] + t;
    }
    if AllSpace(s) {
      TrimStartAllSpace(s);
    }
  }

  lemma AllSpaceConcat(a: string, b: string)
    requires AllSpace(a) && AllSpace(b)
    ensures AllSpace(a + b)
  {
    forall k | 0 <= k < |a + b| ensures IsSpace((a + b)[k]) {
      if k < |a| { assert (a + b)[k] == a[k]; } else { assert (a + b)[k] == b[k - |a|]; }
    }
  }

  lemma {:induction false} TrimStartAllSpace(s: string)
    requires AllSpace(s)
    ensures TrimStart(s) == []
  {
    if |s| > 0 {
      TrimStartAllSpace(s[1..]);
    }
  }

  /** What is left starts and ends with a non-space character. */
  lemma StripBorders(s: string)
    ensures var r := TrimEnd(TrimStart(s));
            r != [] ==> !IsSpace(r[0]) && !IsSpace(r[|r| - 1])
  {
    var t := TrimStart(s);
    var r := TrimEnd(t);
    if r != [] {
      assert r[0] == t[0];
    }
  }

  /** What is left is an infix of `s` with only whitespace around it. */
  lemma StripPadded(s: string)
    ensures PaddedBy(s, TrimEnd(TrimStart(s)))
  {
    var t := TrimStart(s);
    var r := TrimEnd(t);
    var i := |s| - |t|;
    assert s[i..i + |r|] == r;
    assert s[i + |r|..] == t[|r|..];
  }

  /** Leading whitespace in front of text that starts with a non-space
      is exactly what `TrimStart` removes. */
  lemma {:induction false} TrimStartPadding(a: string, u: string)
    requires AllSpace(a)
    requires |u| > 0 && !IsSpace(u[0])
    ensures TrimStart(a + u) == u
  {
    if |a| > 0 {
      assert (a + u)[1..] == a[1..] + u;
      TrimStartPadding(a[1..], u);
    } else {
      assert a + u == u;
    }
  }

  /** Trailing whitespace behind text that ends with a non-space is exactly
      what `TrimEnd` removes. */
  lemma {:induction false} TrimEndPadding(u: string, b: string)
    requires |u| > 0 && !IsSpace(u[|u| - 1])
    requires AllSpace(b)
    ensures TrimEnd(u + b) == u
  {
    if |b| > 0 {
      assert (u + b)[..|u + b| - 1] == u + b[..|b| - 1];
      TrimEndPadding(u, b[..|b| - 1]);
    } else {
      assert u + b == u;
    }
  }

  /** `Strip` agrees with the reference definition: whitespace padding
      around a core that is empty or bordered by non-space characters
      strips to that core. */
  lemma StripUnique(a: string, t: string, b: string)
    requires AllSpace(a) && AllSpace(b)
    requires t == [] || (!IsSpace(t[0]) && !IsSpace(t[|t| - 1]))
    ensures Strip(a + t + b) == t
  {
    var s := a + t + b;
    if t == [] {
      assert s == a + b;
      assert AllSpace(s) by {
        forall k | 0 <= k < |s| ensures IsSpace(s[k]) {
          if k < |a| { assert s[k] == a[k]; } else { assert s[k] == b[k - |a|]; }
        }
      }
    } else {
      assert s == a + (t + b);
      TrimStartPadding(a, t + b);
      TrimEndPadding(t, b);
    }
  }

  /** Stripping twice is the same as stripping once. */
  lemma StripIdempotent(s: string)
    ensures Strip(Strip(s)) == Strip(s)
  {
  }

  // ------------------------------------------------------- prefix/replace

  /** `s.startswith(p)`. */
  predicate StartsWith(s: string, p: string) {
    |p| <= |s| && s[..|p|] == p
  }

  /** `p` occurs in `s` starting at position `i`. */
  predicate OccursAt(s: string, p: string, i: int) {
    0 <= i && i + |p| <= |s| && s[i..i + |p|] == p
  }

  /** Dropping the first character moves every later occurrence one place left. */
  lemma OccursShift(s: string, p: string, i: int)
    requires |s| > 0 && i >= 1
    ensures OccursAt(s, p, i) <==> OccursAt(s[1..], p, i - 1)
  {
    if i + |p| <= |s| {
      assert s[1..][i - 1..i - 1 + |p|] == s[i..i + |p|];
    }
  }

  /** `s.replace(pattern, replacement, 1)`. An empty `pattern` occurs at the
      very start, as in Python. */
  function ReplaceFirst(s: string, pattern: string, replacement: string): string
    decreases |s|
  {
    if StartsWith(s, pattern) then replacement + s[|pattern|..]
    else if |s| == 0 then s
    else [s[0]] + ReplaceFirst(s[1..], pattern, replacement)
  }

  /** The first occurrence of the pattern is replaced and the text around it
      is kept. */
  lemma {:induction false} ReplaceFirstOccurrence(s: string, pattern: string, replacement: string, i: int)
    requires OccursAt(s, pattern, i)
    requires forall j :: 0 <= j < i ==> !OccursAt(s, pattern, j)
    ensures ReplaceFirst(s, pattern, replacement) == s[..i] + replacement + s[i + |pattern|..]
  {
    if i > 0 {
      assert !OccursAt(s, pattern, 0);
      OccursShift(s, pattern, i);
      forall j | 0 <= j < i - 1 ensures !OccursAt(s[1..], pattern, j) {
        OccursShift(s, pattern, j + 1);
      }
      ReplaceFirstOccurrence(s[1..], pattern, replacement, i - 1);
      assert s[..i] == [s[0]] + s[1..][..i - 1];
      assert s[i + |pattern|..] == s[1..][i - 1 + |pattern|..];
    }
  }

  /** Without an occurrence of the pattern the string is unchanged. */
  lemma {:induction false} ReplaceFirstAbsent(s: string, pattern: string, replacement: string)
    requires forall i :: 0 <= i <= |s| ==> !OccursAt(s, pattern, i)
    ensures ReplaceFirst(s, pattern, replacement) == s
  {
    assert !OccursAt(s, pattern, 0);
    if |s| > 0 {
      forall i | 0 <= i <= |s[1..]| ensures !OccursAt(s[1..], pattern, i) {
        OccursShift(s, pattern, i + 1);
      }
      ReplaceFirstAbsent(s[1..], pattern, replacement);
      assert s == [s[0]] + s[1..];
    }
  }
}

=== FILE: wrappers.dfy ===
/** Option and Result types used for the application's error paths. */
module Wrappers {

  /** A value that may be absent, such as an unset environment variable
      or a missing form field. */
  datatype Option<+T> = None | Some(value: T) {

    /** The wrapped value, or `default` when there is none. */
    function GetOr(default: T): T {
      match this
      case Some(v) => v
      case None => default
    }
  }

  /** The outcome of an operation that raises an exception in app.py: either a value or the reason it was rejected. */
  datatype Result<+R, +E> = Success(value: R) | Failure(error: E)
}
